=== FILE: README.md ===
# workers: a Dafny model of the job pipeline, the group supervisor and the tick pool

This project models the sequential logic of the Go package `workers`, an
in-process background-job library. The goroutines and channels are replaced
by pure functions and step relations over finite event sequences. The model
covers five pieces:

- **Worker pipeline** (`worker.go`, module `Pipeline`). A `Worker` is an
  immutable configuration: a base job, an optional lock wrapper, an optional
  schedule, an "immediately" flag and an optional `done` callback. `Run` and
  `RunOnce` are pure functions from the configuration and a `World` to the
  resulting world, including the trace of events the run emits (`Invoke`,
  `Acquired`, `Refused`, `Released`, `Done`, ...). `None` means the
  while-positive schedule loops forever. The context is assumed to be
  cancelled eventually and child groups are assumed to drain (see "## Left
  out").
- **Lock wrapper** (`lock.go`, module `Locking`). `Lock` is a compare-and-set
  on a boolean, as the locker example does it. The wrapper skips the job when
  the lock is busy, and otherwise brackets exactly one invocation with one
  lock and one unlock.
- **Group supervisor** (`group.go`, module `Supervisor`). `Group.run` is a
  single-owner state machine: the held-jobs list (`Some` before `running`,
  `None` after), the started jobs, a count of returned jobs, the cancelled
  flag, and the phase (accepting, draining, closed). The loop's `select` has
  no priority, so `Step` is a relation: any enabled action may come next.
  `Add`, `Run`, `Stop`, `Wait` and `AddGroup` sit on top of it.
- **OnDemand handle** (`ondemand.go`, module `OnDemand`). It submits
  `RunOnce` through the same intake and the same stopped check.
- **Tick-driven pool** (`workers.go`, module `TickPool`). This is a separate
  API layer. It has a per-job loop over a stream of tick, closed or
  cancelled signals, and a pool state machine with the wait-group counter.

Jobs are not arbitrary closures. A `Job` describes the effects the
repository's own jobs have: it may block until its context is cancelled, it
adds a delta to a shared counter, and it may stop and then wait for child
groups (the job `AddGroup` registers). A schedule is one of:

- `CallOnce`: the call-once wrapper of the immediate-run test.
- `WhilePositive`: the "repeat while the counter is positive" schedule of the
  custom-schedule test and the locker example.
- `Ticks(n)`: an abstract tick source that fires `n` times before the
  context is cancelled.

## Model

| member | source | states |
|---|---|---|
| Locking.Lock | examples/locker/main.go:63-68 | Lock succeeds exactly when the lock is free, and the lock is held afterwards |
| Locking.Unlock | examples/locker/main.go:70-72 | Unlock leaves the lock free, appends the release, and leaves the counter and the context as they were |
| Locking.WithLock | lock.go:16-26 | the wrapped call leaves the lock as it found it; on a busy lock the job is skipped and the world is untouched apart from the refusal; on a free lock the trace is one lock, the job body once, one unlock |
| Locking.HeldCall | lock.go:19-23 | a call between a successful Lock and its Unlock frees the lock, applies the job's counter change and context effect once, and emits the lock, the body once, then the unlock |
| Locking.WithLockCounts | lock.go:19-23 | one wrapped call adds exactly one invocation, one lock and one unlock when the lock was free, and none of them (one refusal) when it was busy |
| Locking.HeldLockSkipsOthers | lock.go:19-21 | while one call holds the lock, a second wrapped call of any job invokes nothing and does not touch the lock, counter or context |
| Pipeline.SettersCommuteAndOverride | worker.go:29-69 | each fluent setter owns one field: all six pairs of different setters commute, a repeated BySchedule, SetImmediately or WithDone overrides the earlier value, WithLock is idempotent, and none changes the job |
| Pipeline.CallWrapped | worker.go:76-80 | one call of the lock-wrapped (or bare) job appends exactly one call block, keeps the lock state, and changes counter and context only if the body ran |
| Pipeline.WhileLoop | examples/locker/main.go:28-36 | the while-positive loop returns exactly when the counter is already non-positive or each call lowers it, and then leaves the counter non-positive and the lock as it was |
| Pipeline.TickLoop | worker.go:97-101 | a tick-driven schedule returns only once the context is cancelled, with the lock as it was |
| Pipeline.Run | worker.go:72-102 | a run that returns keeps the lock state; it fails to return exactly when the while-positive schedule is reached and cannot make progress (given that the context is cancelled eventually and child groups drain) |
| Pipeline.RunOnce | worker.go:105-116 | RunOnce makes exactly one call of the lock-wrapped job, followed by done when set |
| Pipeline.RunShape | worker.go:76-101 | every returning run emits a whole number of call blocks and then done: the lock wrapper is inside the schedule, so each scheduled call locks and unlocks by itself |
| Pipeline.RunDoneLast | worker.go:73-75 | when done is set it runs exactly once and last on every path where Run returns; otherwise it never runs |
| Pipeline.RunOnceDoneLast | worker.go:106-108 | the same exactly-once, last guarantee for RunOnce |
| Pipeline.RunImmediateOnly | worker.go:82-87 | immediately with no schedule: exactly one call, then return |
| Pipeline.RunImmediateThenSchedule | worker.go:82-101 | immediately with a schedule and a live context: one direct call, then the schedule-wrapped job; with CallOnce exactly two calls |
| Pipeline.RunImmediateCancelled | worker.go:89-94 | immediately with a schedule and the context cancelled by the time the first call returns: one call, and the schedule is never applied |
| Pipeline.RunPlain | worker.go:97-101 | neither immediately nor a schedule: exactly one call, and counter and context change only if the body ran |
| Pipeline.RunBare | worker.go:97-101 | a worker built by New alone runs its job exactly once, with no lock and no done |
| Pipeline.RunLockPerCall | worker.go:78-80 | with a lock, every one of the n calls in a run sees the lock state the run started with: on a free lock each call locks, invokes once and unlocks; on a held lock each is refused and invokes nothing; the lock ends as it started |
| Pipeline.RunOnceIgnoresSchedule | worker.go:105-116 | RunOnce is unchanged by the schedule and immediately settings and invokes the body at most once |
| Pipeline.WhileLoopStuck | schedule_test.go:23-30 | when a call cannot lower the counter, the next call cannot either and the counter stays positive, so within one run the loop never exits; a lock found held counts as held for the whole run |
| Pipeline.WhileLoopCountdown | schedule_test.go:23-30 | a decrement-by-one job that always runs takes the counter from c to exactly 0 in exactly c calls |
| Pipeline.CustomScheduleScenario | schedule_test.go:13-43 | counter 5, a decrement job and the while-positive schedule: Run returns with 5 invocations and the counter at 0 |
| Pipeline.ImmediateScenarios | worker_test.go:12-70 | the increment job runs twice with immediately plus CallOnce and once without a schedule; a job blocking on the context runs once even with the schedule |
| Supervisor.NewGroup | group.go:21-31 | a new group accepts, holds an empty non-nil job list, has started nothing, is cancelled exactly when its parent is, and satisfies the group invariant |
| Supervisor.Step | group.go:44-61 | which loop actions are enabled: a submission or Run only while accepting, taking cancellation only when cancelled, closing done only when draining with every started job returned; nothing but CloseDone enters Closed |
| Supervisor.ReachableInv | group.go:33-61 | the group invariant is kept by every run of loop actions, so with NewGroup every group reachable from creation has at most as many returned jobs as started ones, is cancelled once it stops accepting, and has no running job once closed |
| Supervisor.NoCancelPriority | group.go:45-60 | while accepting with the context cancelled, a submission, Run and the cancellation are all enabled together |
| Supervisor.SubmitWhilePending | group.go:46-50 | before running, a received job is appended to the held list and nothing starts |
| Supervisor.ActivateStartsHeld | group.go:51-56 | on running, the held jobs start in list order and the list becomes nil; every later submission starts at once |
| Supervisor.DrainStartsNothing | group.go:57-59 | once the loop has taken cancellation, no action ever starts a job, so jobs still held then never start; a closed group stays closed |
| Supervisor.CloseExactlyOnce | group.go:34 | along any run, done is closed once if the run reaches Closed from another phase and never otherwise |
| Supervisor.CloseOnlyWhenDrained | group.go:57-59 | done closes only after cancellation and when every started job has returned |
| Supervisor.IntakeFilter | group.go:66-69 | the intake is the order-preserving filter: it distributes over concatenation, and one worker yields its Run entry exactly when it and its job are non-nil |
| Supervisor.Intake | group.go:66-69 | the entries Add submits are at most the workers given, each with a job and the Run entry point |
| Supervisor.IntakeMembers | group.go:66-69 | a worker is submitted with its Run entry point exactly when it and its job are non-nil |
| Supervisor.Add | group.go:65-77 | Add fails exactly when the group is no longer accepting and some worker has a job; a failing call submits nothing |
| Supervisor.AddIsSubmits | group.go:70-74 | a successful Add is exactly the loop receiving the intake's entries in order |
| Supervisor.AddWhilePending | group.go:46-50 | before Run, Add appends the non-nil workers to the held list in call order and starts none |
| Supervisor.AddWhileRunning | group.go:51 | after Run, Add starts the non-nil workers immediately, in call order |
| Supervisor.RunGroup | group.go:85-90 | Run is the loop's running action while accepting, and has no effect once the group has stopped accepting |
| Supervisor.RunGroupIdempotent | group.go:52-56 | a repeated Run changes nothing, because the held list is already nil |
| Supervisor.Stop | group.go:93-95 | Stop cancels the context and changes nothing else |
| Supervisor.StopIdempotent | group.go:93-95 | Stop is idempotent |
| Supervisor.Wait | group.go:99-110 | Wait can return nil exactly when done is closed and the context error exactly when the context fired; with neither it blocks, and Wait(nil) returns only after done |
| Supervisor.WaitNilDrained | group.go:97-110 | on a group reached from NewGroup, a nil result from Wait means the group was cancelled and every started job has returned |
| Supervisor.AddGroupSubmitsOne | group.go:113-124 | AddGroup submits exactly one job through Add, or reports the group stopped |
| Supervisor.CascadeRun | group.go:114-122 | the registered job waits for cancellation, then stops every child in list order, then waits for every child in list order |
| OnDemand.Run | ondemand.go:9-19 | a nil job gives nil with nothing submitted; otherwise Run submits the RunOnce entry exactly when the group accepts and reports ErrGroupStopped otherwise, submitting nothing |
| OnDemand.SameIntakeAsAdd | ondemand.go:13-17 | OnDemand.Run succeeds or fails exactly as Add of the same worker does, and delivers the same worker with the RunOnce entry point |
| OnDemand.HeldWhilePending | ondemand.go:14 | an on-demand submission before the group's Run is held like any added job |
| OnDemand.SubmitsRunOnce | ondemand.go:14 | the submitted entry runs RunOnce: one call of the lock-wrapped job whatever the schedule and immediately flag |
| TickPool.LoopStep | workers.go:49-57 | a tick keeps the loop running; a closed source or a cancellation ends it |
| TickPool.JobLoopCalls | workers.go:41-59 | a loop calls Handler once per tick before the first close or cancellation and at no other time, exits exactly when such a signal arrives, and then calls Canceler exactly once and last if set |
| TickPool.ClosedSourceStops | workers.go:50-53 | a closed tick source ends the loop without a handler call for it |
| TickPool.NewPool | workers.go:24-31 | a new pool accepts, has an empty buffer and no loops, leaves done open, is cancelled exactly when its parent is, and satisfies the pool invariant |
| TickPool.PStep | workers.go:33-70 | AddJob is enabled only with an empty one-slot buffer, a loop starts only while accepting, done closes only after cancellation with the counter at zero, and loops are never removed |
| TickPool.PoolReachableInv | workers.go:33-66 | the pool invariant is kept by every run of actions, so with NewPool every pool reachable from creation keeps each loop's calls as handlers then at most one final Canceler, and is cancelled with no running loop once done |
| TickPool.DoneOnlyWhenDrained | workers.go:60-63 | done closes only after cancellation, after the sentinel is released, and once every started loop has exited |
| TickPool.CounterAccounting | workers.go:36-46 | the wait-group counter goes up by one per started loop and down by one per exited loop, and the sentinel is released once, on cancellation |
| TickPool.LoopsFrame | workers.go:48-57 | each action changes at most one loop, so a handler call happens only on a tick delivered to that loop |
| TickPool.NoLoopsAfterStop | workers.go:60-64 | after the run goroutine has taken cancellation, no loop is ever started |
| TickPool.LateAddJobNeverStarts | workers.go:68-70 | AddJob on a stopped pool with an empty buffer still returns, but its job never starts |
| TickPool.Wait | workers.go:72-79 | Wait can return nil exactly when done is closed and the context error exactly when the context fired; with neither it blocks |
| TickPool.WaitNilDrained | workers.go:60-79 | on a pool reached from NewPool, a nil result from Wait means the pool was cancelled and every loop it started has exited |

## Left out

- Pipeline.Run: a job that waits on `<-ctx.Done()` is assumed to see the context cancelled eventually, and a child group's `Wait(nil)` in the `AddGroup` job is assumed to return. In Go such a job never returns if nobody cancels or a child hangs, so `Some` means "returns under these assumptions" and `None` covers only the while-positive loop. The same holds for Supervisor.CascadeRun.
- Pipeline.RunLockPerCall: only the run's own calls change the lock flag, so a lock held when a run starts counts as held for every call of that run, under every schedule. The same holds for Pipeline.RunShape and Pipeline.TickLoop, whose call blocks all use the starting lock state. With a locker shared by two workers (examples/locker/main.go:41-42), the other worker's deferred `Unlock` (lock.go:22) can free it mid-run. In Go a later call can then lock and invoke, and the run can end with the lock free; the model does not cover that.
- Pipeline.WhileLoop: a lock found held when the loop starts is treated as held for the whole loop. Another worker sharing the locker, as in examples/locker/main.go:41-42, may release it, and the Go loop can then make progress and exit.
- Goroutines, channels and `sync.WaitGroup` are replaced by actions and counters. Real concurrency, scheduling fairness and timing are not modelled.
- `ByTimer`, `ByTicker` and `ByCronSpec` (worker.go:35-51) are left out. Their schedule sources are not part of this model, and cron parsing is an external library. `Ticks(n)` stands in for any tick-driven schedule. Its "cancellation observed first ends the loop" rule is an assumption about those sources.
- Pipeline.Schedule: a Go schedule (worker.go:17) is any `func(ctx, Job) Job`. Only the three schedules above are modelled, and Pipeline.RunShape and Pipeline.RunDoneLast are proved for those three alone. A user schedule that, say, calls the job twice and returns without cancellation is not modelled.
- Wall-clock behaviour is not modelled: tick periods, the timing assertions of schedule_test.go, and Wait deadlines as durations. A deadline is only "the context fired".
- Jobs are limited to the effects above (counter delta, block on cancel, stop and wait children). Arbitrary closures are not modelled. The counter is an unbounded integer, so the tests' `int32` wrap-around is not modelled; the tests never come near it.
- Panics are not modelled. That covers calling a nil job, a nil worker bound by `Group.OnDemand` (ondemand.go:10), a nil `Locker` (lock.go:19), a nil context passed to `Workers.Wait` (workers.go:74), a nil `Handler` in the pool, and panic propagation through `done`. Here `Run`/`RunOnce` require a job, the handle's worker and the pool's `Wait` context are never nil, and `Add` (group.go:67) skips nil workers and nil jobs. `done` is modelled only as a finaliser.
- Only the compare-and-set `Locker` is modelled. Other backends (the redis lock of the examples) are not part of this model.
- A group does not execute the traces of its started jobs. It records started entries and counts returned jobs. `RunEntry` links an entry to the pipeline model.
- The child groups of `AddGroup` are identified by index. The cascade emits `StopChild`/`WaitChild` events, but the child state machines are not composed into a tree.
- Supervisor.Add: a call is modelled as happening with no loop action between its sends. A call made while the loop drains gets its only possible result (`ErrGroupStopped`) at once, instead of blocking until `done` closes. Interleavings inside one call can be expressed as one-worker `Add` calls with loop actions between them.
- OnDemand.Run: the same simplification as `Add` for a call made while the loop drains.
- Supervisor.RunGroup: a `Run()` made while the loop drains returns at once with no effect, instead of blocking until `done` closes.
- Group.OnDemand (group.go:80-82) is the trivial `OnDemand.Bind`. The group is passed explicitly to `OnDemand.Run`.

=== FILE: contexts.dfy ===
/** The part of Go's `context.Context` that `Wait` observes. */
module Contexts {

  /** The error `ctx.Err()` reports once the context has fired. */
  datatype CtxError = Canceled | DeadlineExceeded

  /** A waiting context: whether it has fired, and the error it then reports. */
  datatype Ctx = Ctx(fired: bool, err: CtxError)
}

=== FILE: jobs.dfy ===
/**
 * The observable world a job runs in.  A Go `Job` is an arbitrary closure;
 * here a job is described by the effects the repository's own jobs have:
 * it may block until its context is cancelled, it adds a delta to a shared
 * counter (the increment/decrement jobs of the tests), and it may stop and
 * then wait for child groups (the job that `AddGroup` registers).
 * Everything a job, a lock wrapper or a worker does is recorded as an event.
 */
module Jobs {
  import opened Traces

  /** Index of a child group inside an `AddGroup` call. */
  type GroupId = nat

  datatype Event =
    | Invoke                       // the base job's body starts
    | CtxDone                      // the body returned from `<-ctx.Done()`
    | StopChild(child: GroupId)    // `child.Stop()`
    | WaitChild(child: GroupId)    // `child.Wait(nil)`
    | Acquired                     // `Locker.Lock()` returned nil
    | Refused                      // `Locker.Lock()` returned an error
    | Released                     // `Locker.Unlock()`
    | Done                         // the worker's deferred `done` callback

  /** The effect of one base-job body. */
  datatype Job = Job(awaitsCancel: bool, delta: int, children: seq<GroupId>)

  /**
   * The shared state a run can observe: the compare-and-set lock flag, the
   * counter the test jobs change, whether the run's context is cancelled, and
   * the trace of events so far.
   */
  datatype World = World(locked: bool, counter: int, cancelled: bool, trace: seq<Event>)

  function Stops(cs: seq<GroupId>): (r: seq<Event>)
    ensures |r| == |cs|
    ensures forall i :: 0 <= i < |cs| ==> r[i] == StopChild(cs[i])
  {
    if cs == [] then [] else [StopChild(cs[0])] + Stops(cs[1..])
  }

  function Waits(cs: seq<GroupId>): (r: seq<Event>)
    ensures |r| == |cs|
    ensures forall i :: 0 <= i < |cs| ==> r[i] == WaitChild(cs[i])
  {
    if cs == [] then [] else [WaitChild(cs[0])] + Waits(cs[1..])
  }

  /** Predicate: `e` is an event only a job body emits. */
  predicate BodyEvent(e: Event)
  {
    e.Invoke? || e.CtxDone? || e.StopChild? || e.WaitChild?
  }

  /** What the body does after it has started. */
  function Rest(j: Job): (t: seq<Event>)
    ensures forall i :: 0 <= i < |t| ==> BodyEvent(t[i]) && !t[i].Invoke?
  {
    (if j.awaitsCancel then [CtxDone] else []) + Stops(j.children) + Waits(j.children)
  }

  /** The events of one execution of the body of `j`: it starts exactly once. */
  function Body(j: Job): (b: seq<Event>)
    ensures |b| > 0 && b[0] == Invoke
    ensures forall i :: 0 <= i < |b| ==> BodyEvent(b[i])
    ensures Count(b, Invoke) == 1
  {
    CountCons(Invoke, Rest(j), Invoke);
    [Invoke] + Rest(j)
  }

  /** Calling the unwrapped job once; the body never touches the lock. */
  function Call(j: Job, w: World): (r: World)
    ensures r.locked == w.locked
  {
    World(w.locked, w.counter + j.delta, w.cancelled || j.awaitsCancel, w.trace + Body(j))
  }
}

=== FILE: locking.dfy ===
/**
 * lock.go: the `Locker` capability and the skip-on-failure `WithLock`
 * wrapper, with the compare-and-set locker of the locker example as the
 * concrete `Locker`.
 */
module Locking {
  import opened Wrappers
  import opened Traces
  import opened Jobs

  /** `Lock()` as `CompareAndSwapInt32(&locked, 0, 1)`; `None` is the error return. */
  function Lock(w: World): (r: Option<World>)
    ensures r.Some? <==> !w.locked
    ensures r.Some? ==> r.value.locked && r.value.trace == w.trace + [Acquired]
    ensures r.Some? ==> r.value.counter == w.counter && r.value.cancelled == w.cancelled
  {
    if w.locked then None else Some(w.(locked := true, trace := w.trace + [Acquired]))
  }

  /** `Unlock()` as `StoreInt32(&locked, 0)`. */
  function Unlock(w: World): (r: World)
    ensures !r.locked && r.trace == w.trace + [Released]
    ensures r.counter == w.counter && r.cancelled == w.cancelled
  {
    w.(locked := false, trace := w.trace + [Released])
  }

  /**
   * The job returned by `WithLock(l)(ctx, j)`: on a failed `Lock()` it returns
   * without running `j`; otherwise it runs `j` once and the deferred
   * `Unlock()` follows.
   */
  function WithLock(j: Job, w: World): (r: World)
    ensures r.locked == w.locked
    ensures w.locked ==> r == w.(trace := w.trace + [Refused])
    ensures !w.locked ==> r.trace == w.trace + ([Acquired] + Body(j) + [Released])
    ensures !w.locked ==> r.counter == w.counter + j.delta && r.cancelled == (w.cancelled || j.awaitsCancel)
  {
    match Lock(w)
    case None => w.(trace := w.trace + [Refused])
    case Some(held) =>
      HeldCall(j, w);
      Unlock(Call(j, held))
  }

  /** One call of `j` between a successful `Lock()` and its `Unlock()`. */
  lemma HeldCall(j: Job, w: World)
    requires !w.locked
    ensures Unlock(Call(j, Lock(w).value))
      == w.(counter := w.counter + j.delta,
            cancelled := w.cancelled || j.awaitsCancel,
            trace := w.trace + ([Acquired] + Body(j) + [Released]))
  {
    assert w.trace + [Acquired] + Body(j) + [Released] == w.trace + ([Acquired] + Body(j) + [Released]);
  }

  /** The events of one successful wrapped call: one invocation bracketed by one lock and one unlock. */
  lemma HeldBlockCounts(j: Job)
    ensures var e := [Acquired] + Body(j) + [Released];
      Count(e, Invoke) == 1 && Count(e, Acquired) == 1 && Count(e, Released) == 1 && Count(e, Refused) == 0
  {
    var b := Body(j);
    assert Acquired !in b && Released !in b && Refused !in b by {
      forall i | 0 <= i < |b| ensures BodyEvent(b[i]) { }
    }
    CountBracket(Acquired, b, Released, Invoke);
    CountBracket(Acquired, b, Released, Acquired);
    CountBracket(Acquired, b, Released, Released);
    CountBracket(Acquired, b, Released, Refused);
  }

  /** The counting view of `WithLock`: one invocation and one unlock per successful lock, none otherwise. */
  lemma WithLockCounts(j: Job, w: World)
    ensures var r := WithLock(j, w);
      && Count(r.trace, Invoke) == Count(w.trace, Invoke) + (if w.locked then 0 else 1)
      && Count(r.trace, Acquired) == Count(w.trace, Acquired) + (if w.locked then 0 else 1)
      && Count(r.trace, Released) == Count(w.trace, Released) + (if w.locked then 0 else 1)
      && Count(r.trace, Refused) == Count(w.trace, Refused) + (if w.locked then 1 else 0)
  {
    var e := if w.locked then [Refused] else [Acquired] + Body(j) + [Released];
    assert WithLock(j, w).trace == w.trace + e;
    if !w.locked {
      HeldBlockCounts(j);
    }
    CountConcat(w.trace, e, Invoke);
    CountConcat(w.trace, e, Acquired);
    CountConcat(w.trace, e, Released);
    CountConcat(w.trace, e, Refused);
  }

  /**
   * Mutual exclusion: while one wrapped call holds the lock (after its
   * `Lock()` succeeded), a second wrapped call, of any job, invokes nothing
   * and leaves the lock, the counter and the context as they were.
   */
  lemma HeldLockSkipsOthers(j: Job, w: World)
    requires !w.locked
    ensures var held := Lock(w).value;
      WithLock(j, held) == held.(trace := held.trace + [Refused])
    ensures var held := Lock(w).value;
      Count(WithLock(j, held).trace, Invoke) == Count(held.trace, Invoke)
  {
    var held := Lock(w).value;
    CountConcat(held.trace, [Refused], Invoke);
  }
}

=== FILE: ondemand.dfy ===
/**
 * ondemand.go: a handle binding one worker to one group; its `Run`
 * submits the worker's `RunOnce` entry point through the group's intake.
 */
module OnDemand {
  import opened Wrappers
  import opened Jobs
  import P = Pipeline
  import opened Supervisor

  /** The `onDemand` struct; the group is the state passed to `Run`. */
  datatype Handle = Handle(worker: P.Worker)

  /** `Group.OnDemand(worker)`. */
  function Bind(w: P.Worker): Handle
  {
    Handle(w)
  }

  /** `onDemand.Run()`, with the loop otherwise idle during the call (as for `Add`). */
  function Run(g: Group, d: Handle): (r: (Group, Option<Error>))
    ensures d.worker.job.None? ==> r == (g, None)
    ensures d.worker.job.Some? ==> (r.1.None? <==> g.phase == Accepting)
    ensures r.1.Some? ==> r.0 == g && r.1 == Some(ErrGroupStopped)
    ensures r.1.None? && d.worker.job.Some? ==> Step(g, Submit(Entry(d.worker, true))) == Some(r.0)
  {
    if d.worker.job.None? then (g, None)
    else if g.phase == Accepting then (Deliver(g, Entry(d.worker, true)), None)
    else (g, Some(ErrGroupStopped))
  }

  /**
   * Same intake, same stopped check: for a worker with a job, `Run` succeeds
   * or fails exactly when `Add` of that worker does, and delivers the same
   * worker, only with the `RunOnce` entry point instead of `Run`.
   */
  lemma SameIntakeAsAdd(g: Group, d: Handle)
    requires d.worker.job.Some?
    ensures Run(g, d).1 == Add(g, [Some(d.worker)]).1
    ensures g.phase == Accepting ==>
      Run(g, d).0 == Deliver(g, Entry(d.worker, true)) &&
      Add(g, [Some(d.worker)]).0 == Deliver(g, Entry(d.worker, false))
  {
    assert [Some(d.worker)][1..] == [];
    if g.phase == Accepting {
      assert Add(g, [Some(d.worker)]) == Add(Deliver(g, Entry(d.worker, false)), []);
    }
  }

  /** Before the group's `Run()`, an on-demand submission is held like any added job. */
  lemma HeldWhilePending(g: Group, d: Handle)
    requires d.worker.job.Some? && g.phase == Accepting && g.held.Some?
    ensures Run(g, d).0.held == Some(g.held.value + [Entry(d.worker, true)])
    ensures Run(g, d).0.started == g.started
  {
  }

  /**
   * The submitted entry point is `RunOnce`: when the group starts it, it
   * makes exactly one call of the lock-wrapped job whatever the worker's
   * schedule and immediate flag.
   */
  lemma SubmitsRunOnce(d: Handle, w: World, c: bool)
    requires d.worker.job.Some?
    ensures RunEntry(Entry(d.worker, true), w, c) == Some(P.RunOnce(d.worker, w))
    ensures P.RunOnce(d.worker, w).trace == w.trace + P.Block(d.worker, d.worker.job.value, w.locked) + P.Fin(d.worker)
  {
  }
}

=== FILE: pipeline.dfy ===
/**
 * worker.go: the `Worker` configuration, its fluent setters, and the two
 * entry points `Run` and `RunOnce` that compose the base job with the lock
 * wrapper, the optional immediate first run, the optional schedule and the
 * deferred `done` callback.
 */
module Pipeline {
  import opened Wrappers
  import opened Traces
  import opened Jobs
  import Locking

  /**
   * A schedule turns the (lock-wrapped) job into a repeating job.  Only the
   * schedules whose code is part of this model appear concretely:
   *  - CallOnce: the wrapper that calls the job once (the immediate-run test);
   *  - WhilePositive: "repeat while the shared counter is positive" (the
   *    custom-schedule test and the locker example);
   *  - Ticks(n): any tick-driven schedule, abstracted to a tick source that
   *    fires `n` times before the context is cancelled.
   */
  datatype Schedule = CallOnce | WhilePositive | Ticks(n: nat)

  /** The `Worker` struct; a nil `job`, `schedule` or `done` is `None`/false. */
  datatype Worker = Worker(
    job: Option<Job>,
    hasDone: bool,
    withLock: bool,
    schedule: Option<Schedule>,
    immediately: bool)

  function New(job: Option<Job>): Worker
  {
    Worker(job, false, false, None, false)
  }

  function BySchedule(k: Worker, s: Option<Schedule>): Worker
  {
    k.(schedule := s)
  }

  function SetImmediately(k: Worker, executeOnRun: bool): Worker
  {
    k.(immediately := executeOnRun)
  }

  function WithDone(k: Worker, done: bool): Worker
  {
    k.(hasDone := done)
  }

  function WithLock(k: Worker): Worker
  {
    k.(withLock := true)
  }

  /**
   * The fluent setters each own one field: any two different setters
   * commute, a later call of `BySchedule`, `SetImmediately` or `WithDone`
   * overrides the earlier one, `WithLock` is idempotent, and none of them
   * changes the job.
   */
  lemma SettersCommuteAndOverride(k: Worker, s: Option<Schedule>, s': Option<Schedule>, b: bool, b': bool, d: bool, d': bool)
    ensures BySchedule(SetImmediately(k, b), s) == SetImmediately(BySchedule(k, s), b)
    ensures BySchedule(WithDone(k, d), s) == WithDone(BySchedule(k, s), d)
    ensures BySchedule(WithLock(k), s) == WithLock(BySchedule(k, s))
    ensures SetImmediately(WithDone(k, d), b) == WithDone(SetImmediately(k, b), d)
    ensures SetImmediately(WithLock(k), b) == WithLock(SetImmediately(k, b))
    ensures WithDone(WithLock(k), d) == WithLock(WithDone(k, d))
    ensures BySchedule(BySchedule(k, s), s') == BySchedule(k, s')
    ensures SetImmediately(SetImmediately(k, b), b') == SetImmediately(k, b')
    ensures WithDone(WithDone(k, d), d') == WithDone(k, d')
    ensures WithLock(WithLock(k)) == WithLock(k)
    ensures BySchedule(k, s).job == k.job && SetImmediately(k, b).job == k.job
    ensures WithDone(k, d).job == k.job && WithLock(k).job == k.job
  {
  }

  /** Whether one call of the lock-wrapped job runs the body when the lock flag is `locked`. */
  predicate Invokes(k: Worker, locked: bool)
  {
    !k.withLock || !locked
  }

  /** The events of one call of the (possibly lock-wrapped) job. */
  function Block(k: Worker, j: Job, locked: bool): seq<Event>
  {
    if !k.withLock then Body(j)
    else if locked then [Refused]
    else [Acquired] + Body(j) + [Released]
  }

  /** One call of `job` after `job = w.locker(ctx, job)` was applied, or of the bare job. */
  function CallWrapped(k: Worker, j: Job, w: World): (r: World)
    ensures r.locked == w.locked
    ensures r.trace == w.trace + Block(k, j, w.locked)
    ensures r.counter == w.counter + (if Invokes(k, w.locked) then j.delta else 0)
    ensures r.cancelled == (w.cancelled || (Invokes(k, w.locked) && j.awaitsCancel))
  {
    if k.withLock then
      var r := Locking.WithLock(j, w);
      assert r.trace == w.trace + Block(k, j, w.locked);
      r
    else Call(j, w)
  }

  /** Whether one more iteration of the `WhilePositive` loop lowers the counter. */
  predicate Progresses(k: Worker, j: Job, w: World)
  {
    Invokes(k, w.locked) && j.delta < 0
  }

  /**
   * `for counter > 0 { j(ctx) }`.  When an iteration cannot lower the
   * counter the model treats the loop as spinning forever (see "## Left out"
   * in the README); that is the `None` result.
   */
  function WhileLoop(k: Worker, j: Job, w: World): (r: Option<World>)
    ensures r.Some? ==> r.value.locked == w.locked && r.value.counter <= 0
    ensures r.Some? <==> w.counter <= 0 || Progresses(k, j, w)
    decreases if w.counter > 0 then w.counter else 0
  {
    if w.counter <= 0 then Some(w)
    else if !Progresses(k, j, w) then None
    else WhileLoop(k, j, CallWrapped(k, j, w))
  }

  /**
   * A tick-driven loop: cancellation already observed ends it before the
   * next tick; otherwise each of the `n` ticks calls the job once, and then
   * cancellation arrives and ends the loop.
   */
  function TickLoop(k: Worker, j: Job, n: nat, w: World): (r: World)
    ensures r.locked == w.locked && r.cancelled
  {
    if w.cancelled then w
    else if n == 0 then w.(cancelled := true)
    else TickLoop(k, j, n - 1, CallWrapped(k, j, w))
  }

  /** The job `s(ctx, job)` returned by the schedule, called once. */
  function Scheduled(s: Schedule, k: Worker, j: Job, w: World): Option<World>
  {
    match s
    case CallOnce => Some(CallWrapped(k, j, w))
    case WhilePositive => WhileLoop(k, j, w)
    case Ticks(n) => Some(TickLoop(k, j, n, w))
  }

  /** The deferred `done()` at the end of a run that returns. */
  function Fin(k: Worker): seq<Event>
  {
    if k.hasDone then [Done] else []
  }

  function Finish(k: Worker, w: World): World
  {
    w.(trace := w.trace + Fin(k))
  }

  function FinishOpt(k: Worker, r: Option<World>): Option<World>
  {
    match r
    case None => None
    case Some(w) => Some(Finish(k, w))
  }

  /**
   * `Worker.Run(ctx)`.  `cancelDuringImmediate` is the environment cancelling
   * the context while the immediate run is in progress.  `None` means the
   * while-positive schedule loops forever.  A job that waits on the context
   * is assumed to see it cancelled eventually, and child groups are assumed
   * to drain.  Panics are not modelled (see "## Left out" in the README);
   * `Add` (group.go:67) and `onDemand.Run` never pass a nil job, so the
   * model asks for one.
   */
  function Run(k: Worker, w: World, cancelDuringImmediate: bool): (r: Option<World>)
    requires k.job.Some?
    ensures r.Some? ==> r.value.locked == w.locked
    ensures r.None? <==> k.schedule == Some(WhilePositive) && RunReachesSchedule(k, w, cancelDuringImmediate)
                         && WhileLoop(k, k.job.value, BeforeSchedule(k, w, cancelDuringImmediate)).None?
  {
    var j := k.job.value;
    if k.immediately then
      var w1 := BeforeSchedule(k, w, cancelDuringImmediate);
      if k.schedule.None? || w1.cancelled then Some(Finish(k, w1))
      else FinishOpt(k, Scheduled(k.schedule.value, k, j, w1))
    else if k.schedule.Some? then FinishOpt(k, Scheduled(k.schedule.value, k, j, w))
    else Some(Finish(k, CallWrapped(k, j, w)))
  }

  /** The world once the immediate run (if configured) has returned. */
  function BeforeSchedule(k: Worker, w: World, cancelDuringImmediate: bool): (r: World)
    requires k.job.Some?
    ensures r.locked == w.locked
  {
    if k.immediately then
      var w1 := CallWrapped(k, k.job.value, w);
      w1.(cancelled := w1.cancelled || cancelDuringImmediate)
    else w
  }

  /** Whether `Run` gets as far as applying and calling the schedule. */
  predicate RunReachesSchedule(k: Worker, w: World, cancelDuringImmediate: bool)
    requires k.job.Some?
  {
    k.schedule.Some? && !(k.immediately && BeforeSchedule(k, w, cancelDuringImmediate).cancelled)
  }

  /** `Worker.RunOnce(ctx)`: exactly one call of the lock-wrapped job, then `done`. */
  function RunOnce(k: Worker, w: World): (r: World)
    requires k.job.Some?
    ensures r.trace == w.trace + Block(k, k.job.value, w.locked) + Fin(k)
    ensures r.locked == w.locked
  {
    Finish(k, CallWrapped(k, k.job.value, w))
  }

  // ---------------------------------------------------------------------
  // Shape of a run: whole wrapped-call blocks, then the done callback.
  // ---------------------------------------------------------------------

  /** No block of a wrapped call contains the done event. */
  lemma BlockHasNoDone(k: Worker, j: Job, locked: bool, n: nat)
    ensures Done !in Block(k, j, locked)
    ensures Done !in Repeat(Block(k, j, locked), n)
  {
    var b := Body(j);
    assert Done !in b by {
      forall i | 0 <= i < |b| ensures BodyEvent(b[i]) { }
    }
    NotInRepeat(Block(k, j, locked), n, Done);
  }

  /** How often one call of the wrapped job invokes, locks, unlocks and is refused. */
  lemma BlockCounts(k: Worker, j: Job, locked: bool)
    ensures Count(Block(k, j, locked), Invoke) == (if Invokes(k, locked) then 1 else 0)
    ensures Count(Block(k, j, locked), Done) == 0
    ensures k.withLock ==> Count(Block(k, j, locked), Acquired) == (if locked then 0 else 1)
    ensures k.withLock ==> Count(Block(k, j, locked), Released) == (if locked then 0 else 1)
    ensures k.withLock ==> Count(Block(k, j, locked), Refused) == (if locked then 1 else 0)
  {
    BlockHasNoDone(k, j, locked, 0);
    if k.withLock && !locked {
      Locking.HeldBlockCounts(j);
    }
  }

  /** The done callback contributes nothing but `Done`. */
  lemma FinCounts(k: Worker, x: Event)
    requires x != Done
    ensures Count(Fin(k), x) == 0
  {
  }

  lemma {:induction false} WhileLoopShape(k: Worker, j: Job, w: World) returns (n: nat)
    requires WhileLoop(k, j, w).Some?
    ensures WhileLoop(k, j, w).value.trace == w.trace + Repeat(Block(k, j, w.locked), n)
    decreases if w.counter > 0 then w.counter else 0
  {
    var b := Block(k, j, w.locked);
    if w.counter <= 0 {
      n := 0;
    } else {
      var w' := CallWrapped(k, j, w);
      assert WhileLoop(k, j, w) == WhileLoop(k, j, w');
      var m := WhileLoopShape(k, j, w');
      n := m + 1;
      RepeatStep(w.trace, b, m);
    }
  }

  lemma {:induction false} TickLoopShape(k: Worker, j: Job, ticks: nat, w: World) returns (n: nat)
    ensures n <= ticks
    ensures TickLoop(k, j, ticks, w).trace == w.trace + Repeat(Block(k, j, w.locked), n)
  {
    var b := Block(k, j, w.locked);
    if w.cancelled || ticks == 0 {
      n := 0;
    } else {
      var w' := CallWrapped(k, j, w);
      assert TickLoop(k, j, ticks, w) == TickLoop(k, j, ticks - 1, w');
      var m := TickLoopShape(k, j, ticks - 1, w');
      n := m + 1;
      RepeatStep(w.trace, b, m);
    }
  }

  lemma ScheduledShape(s: Schedule, k: Worker, j: Job, w: World) returns (n: nat)
    requires Scheduled(s, k, j, w).Some?
    ensures Scheduled(s, k, j, w).value.trace == w.trace + Repeat(Block(k, j, w.locked), n)
    ensures Scheduled(s, k, j, w).value.locked == w.locked
  {
    match s
    case CallOnce =>
      n := 1;
      assert Repeat(Block(k, j, w.locked), 1) == Block(k, j, w.locked);
    case WhilePositive =>
      n := WhileLoopShape(k, j, w);
    case Ticks(t) =>
      n := TickLoopShape(k, j, t, w);
  }

  /**
   * Every run that returns leaves `n` whole calls of the lock-wrapped job
   * followed by `done`: the lock wrapper sits inside the schedule, so each
   * scheduled call locks and unlocks on its own and the lock is never held
   * across the loop.
   */
  lemma RunShape(k: Worker, w: World, c: bool) returns (n: nat)
    requires k.job.Some? && Run(k, w, c).Some?
    ensures Run(k, w, c).value.trace == w.trace + Repeat(Block(k, k.job.value, w.locked), n) + Fin(k)
  {
    var j := k.job.value;
    var b := Block(k, j, w.locked);
    var w1 := BeforeSchedule(k, w, c);
    assert Repeat(b, 1) == b;
    if k.immediately {
      if k.schedule.None? || w1.cancelled {
        n := 1;
      } else {
        var m := ScheduledShape(k.schedule.value, k, j, w1);
        n := m + 1;
        RepeatStep(w.trace, b, m);
      }
    } else if k.schedule.Some? {
      n := ScheduledShape(k.schedule.value, k, j, w);
    } else {
      n := 1;
    }
  }

  /**
   * `done` runs exactly once and last on every path on which `Run` returns;
   * without `done` no such event appears.
   */
  lemma RunDoneLast(k: Worker, w: World, c: bool)
    requires k.job.Some? && Run(k, w, c).Some?
    ensures var r := Run(k, w, c).value;
      && Count(r.trace, Done) == Count(w.trace, Done) + (if k.hasDone then 1 else 0)
      && (k.hasDone ==> |r.trace| > |w.trace| && r.trace[|r.trace| - 1] == Done)
      && (forall i :: |w.trace| <= i < |r.trace| - 1 ==> r.trace[i] != Done)
  {
    var n := RunShape(k, w, c);
    BlockHasNoDone(k, k.job.value, w.locked, n);
    FinalEvent(w.trace, Repeat(Block(k, k.job.value, w.locked), n), Fin(k), Done);
  }

  /** The same finaliser guarantee for `RunOnce`. */
  lemma RunOnceDoneLast(k: Worker, w: World)
    requires k.job.Some?
    ensures var r := RunOnce(k, w);
      && Count(r.trace, Done) == Count(w.trace, Done) + (if k.hasDone then 1 else 0)
      && (k.hasDone ==> r.trace[|r.trace| - 1] == Done)
      && (forall i :: |w.trace| <= i < |r.trace| - 1 ==> r.trace[i] != Done)
  {
    BlockHasNoDone(k, k.job.value, w.locked, 0);
    FinalEvent(w.trace, Block(k, k.job.value, w.locked), Fin(k), Done);
  }

  // ---------------------------------------------------------------------
  // How many calls each configuration makes.
  // ---------------------------------------------------------------------

  /** Immediate run without a schedule: one call of the wrapped job, then return. */
  lemma RunImmediateOnly(k: Worker, w: World, c: bool)
    requires k.job.Some? && k.immediately && k.schedule.None?
    ensures Run(k, w, c).Some?
    ensures Run(k, w, c).value.trace == w.trace + Block(k, k.job.value, w.locked) + Fin(k)
  {
  }

  /**
   * Immediate run with a schedule and a context still live afterwards: one
   * direct call, then the schedule-wrapped job; with the call-once schedule
   * that makes exactly two calls.
   */
  lemma RunImmediateThenSchedule(k: Worker, w: World)
    requires k.job.Some? && k.immediately && k.schedule.Some?
    requires !BeforeSchedule(k, w, false).cancelled
    ensures FinishOpt(k, Scheduled(k.schedule.value, k, k.job.value, CallWrapped(k, k.job.value, w)))
            == Run(k, w, false)
    ensures k.schedule == Some(CallOnce) ==>
      Run(k, w, false).Some? &&
      Run(k, w, false).value.trace == w.trace + Block(k, k.job.value, w.locked) + Block(k, k.job.value, w.locked) + Fin(k)
  {
  }

  /**
   * Immediate run with a schedule whose context is cancelled by the time the
   * immediate call returns: `Run` returns after that one call and never
   * applies or calls the schedule.
   */
  lemma RunImmediateCancelled(k: Worker, w: World, c: bool)
    requires k.job.Some? && k.immediately && k.schedule.Some?
    requires c || w.cancelled || (Invokes(k, w.locked) && k.job.value.awaitsCancel)
    ensures !RunReachesSchedule(k, w, c)
    ensures Run(k, w, c).Some?
    ensures Run(k, w, c).value.trace == w.trace + Block(k, k.job.value, w.locked) + Fin(k)
  {
  }

  /** Neither immediate nor scheduled: exactly one call. */
  lemma RunPlain(k: Worker, w: World, c: bool)
    requires k.job.Some? && !k.immediately && k.schedule.None?
    ensures Run(k, w, c).Some?
    ensures Run(k, w, c).value.trace == w.trace + Block(k, k.job.value, w.locked) + Fin(k)
    ensures Run(k, w, c).value.counter == w.counter + (if Invokes(k, w.locked) then k.job.value.delta else 0)
    ensures Run(k, w, c).value.cancelled == (w.cancelled || (Invokes(k, w.locked) && k.job.value.awaitsCancel))
  {
  }

  /** A worker built by `New` alone runs its job exactly once, bare. */
  lemma RunBare(j: Job, w: World, c: bool)
    ensures Run(New(Some(j)), w, c) == Some(Call(j, w))
  {
    assert Fin(New(Some(j))) == [];
    assert Call(j, w).trace + [] == Call(j, w).trace;
  }

  /**
   * With a lock, every call of the wrapped job in a run either is refused
   * (and invokes nothing) or locks, invokes once and unlocks; after the run
   * the lock is as it was.
   */
  lemma RunLockPerCall(k: Worker, w: World, c: bool) returns (n: nat)
    requires k.job.Some? && k.withLock && Run(k, w, c).Some?
    ensures var r := Run(k, w, c).value;
      && r.locked == w.locked
      && Count(r.trace, Acquired) == Count(w.trace, Acquired) + (if w.locked then 0 else n)
      && Count(r.trace, Released) == Count(w.trace, Released) + (if w.locked then 0 else n)
      && Count(r.trace, Invoke) == Count(w.trace, Invoke) + (if w.locked then 0 else n)
      && Count(r.trace, Refused) == Count(w.trace, Refused) + (if w.locked then n else 0)
  {
    n := RunShape(k, w, c);
    var b := Block(k, k.job.value, w.locked);
    BlockCounts(k, k.job.value, w.locked);
    FinCounts(k, Acquired);
    FinCounts(k, Released);
    FinCounts(k, Invoke);
    FinCounts(k, Refused);
    CountUnitBlocks(w.trace, b, n, Fin(k), Acquired);
    CountUnitBlocks(w.trace, b, n, Fin(k), Released);
    CountUnitBlocks(w.trace, b, n, Fin(k), Invoke);
    CountUnitBlocks(w.trace, b, n, Fin(k), Refused);
  }

  /**
   * `RunOnce` ignores the schedule and the immediate flag: it behaves the same
   * whatever they are set to, and makes exactly one call.
   */
  lemma RunOnceIgnoresSchedule(k: Worker, s: Option<Schedule>, b: bool, w: World)
    requires k.job.Some?
    ensures RunOnce(BySchedule(SetImmediately(k, b), s), w) == RunOnce(k, w)
    ensures Count(RunOnce(k, w).trace, Invoke) == Count(w.trace, Invoke) + (if Invokes(k, w.locked) then 1 else 0)
  {
    var k' := BySchedule(SetImmediately(k, b), s);
    assert k'.job == k.job && k'.withLock == k.withLock && k'.hasDone == k.hasDone;
    assert CallWrapped(k', k.job.value, w) == CallWrapped(k, k.job.value, w);
    assert Fin(k') == Fin(k);
    var bl := Block(k, k.job.value, w.locked);
    BlockCounts(k, k.job.value, w.locked);
    FinCounts(k, Invoke);
    assert Repeat(bl, 1) == bl;
    CountUnitBlocks(w.trace, bl, 1, Fin(k), Invoke);
  }

  // ---------------------------------------------------------------------
  // The "repeat while positive" schedule.
  // ---------------------------------------------------------------------

  /**
   * When an iteration cannot lower the counter, the next iteration cannot
   * either and the counter stays positive, which justifies the `None` result
   * of `WhileLoop`.  Within one run the lock flag changes only through the
   * run's own calls, so a lock found held stays held for the whole loop.
   */
  lemma WhileLoopStuck(k: Worker, j: Job, w: World)
    requires w.counter > 0 && !Progresses(k, j, w)
    ensures var w' := CallWrapped(k, j, w); w'.counter > 0 && !Progresses(k, j, w')
  {
  }

  /** A decrement-by-one job that always runs brings the counter from `c >= 0` to exactly zero in `c` calls. */
  lemma {:induction false} WhileLoopCountdown(k: Worker, j: Job, w: World)
    requires j.delta == -1 && Invokes(k, w.locked) && w.counter >= 0
    ensures WhileLoop(k, j, w).Some?
    ensures WhileLoop(k, j, w).value.counter == 0
    ensures WhileLoop(k, j, w).value.trace == w.trace + Repeat(Block(k, j, w.locked), w.counter)
    decreases w.counter
  {
    var b := Block(k, j, w.locked);
    if w.counter > 0 {
      var w' := CallWrapped(k, j, w);
      assert WhileLoop(k, j, w) == WhileLoop(k, j, w');
      WhileLoopCountdown(k, j, w');
      RepeatStep(w.trace, b, w'.counter);
    }
  }

  /**
   * The custom-schedule test: counter 5, a decrement job and the
   * "while counter > 0" schedule; `Run` makes 5 invocations and leaves 0.
   */
  lemma CustomScheduleScenario()
    ensures var k := BySchedule(New(Some(Job(false, -1, []))), Some(WhilePositive));
      var r := Run(k, World(false, 5, false, []), false);
      && r.Some?
      && r.value.counter == 0
      && Count(r.value.trace, Invoke) == 5
  {
    var j := Job(false, -1, []);
    var k := BySchedule(New(Some(j)), Some(WhilePositive));
    var w := World(false, 5, false, []);
    WhileLoopCountdown(k, j, w);
    assert Run(k, w, false) == FinishOpt(k, WhileLoop(k, j, w));
    BlockCounts(k, j, false);
    FinCounts(k, Invoke);
    CountUnitBlocks(w.trace, Block(k, j, false), 5, Fin(k), Invoke);
  }

  /**
   * The immediate-run tests: an increment job with the immediate flag runs
   * twice with the call-once schedule and once without a schedule; a job that
   * blocks until cancellation runs once even with the schedule.
   */
  lemma ImmediateScenarios()
    ensures var inc := New(Some(Job(false, 1, [])));
      var w := World(false, 0, false, []);
      && Run(BySchedule(SetImmediately(inc, true), Some(CallOnce)), w, false) == Some(w.(counter := 2, trace := [Invoke, Invoke]))
      && Run(SetImmediately(inc, true), w, false) == Some(w.(counter := 1, trace := [Invoke]))
    ensures var waiting := New(Some(Job(true, 1, [])));
      var w := World(false, 0, false, []);
      && Run(BySchedule(SetImmediately(waiting, true), Some(CallOnce)), w, false)
         == Some(World(false, 1, true, [Invoke, CtxDone]))
  {
    ImmediateTwice();
    ImmediateOnce();
    ImmediateWaiting();
  }

  /** The bodies of the test jobs: the increment job, and the job that waits on the context. */
  lemma TestJobBodies()
    ensures Body(Job(false, 1, [])) == [Invoke]
    ensures Body(Job(true, 1, [])) == [Invoke, CtxDone]
  {
    assert Stops([]) == [] && Waits([]) == [];
    assert Rest(Job(false, 1, [])) == [];
    assert Rest(Job(true, 1, [])) == [CtxDone];
  }

  /** The increment job with the immediate flag and the call-once schedule runs twice. */
  lemma ImmediateTwice()
    ensures Run(BySchedule(SetImmediately(New(Some(Job(false, 1, []))), true), Some(CallOnce)), World(false, 0, false, []), false)
      == Some(World(false, 2, false, [Invoke, Invoke]))
  {
    TestJobBodies();
    var j := Job(false, 1, []);
    var w := World(false, 0, false, []);
    var k := BySchedule(SetImmediately(New(Some(j)), true), Some(CallOnce));
    var w1 := World(false, 1, false, [Invoke]);
    var w2 := World(false, 2, false, [Invoke, Invoke]);
    assert CallWrapped(k, j, w) == w1;
    assert BeforeSchedule(k, w, false) == w1;
    assert CallWrapped(k, j, w1) == w2;
    assert Scheduled(CallOnce, k, j, w1) == Some(w2);
    assert Run(k, w, false) == FinishOpt(k, Some(w2));
    assert Fin(k) == [] && w2.trace + [] == w2.trace;
  }

  /** The increment job with the immediate flag and no schedule runs once. */
  lemma ImmediateOnce()
    ensures Run(SetImmediately(New(Some(Job(false, 1, []))), true), World(false, 0, false, []), false)
      == Some(World(false, 1, false, [Invoke]))
  {
    TestJobBodies();
    var k := SetImmediately(New(Some(Job(false, 1, []))), true);
    assert CallWrapped(k, Job(false, 1, []), World(false, 0, false, [])) == World(false, 1, false, [Invoke]);
    assert [Invoke] + [] == [Invoke];
  }

  /** A job that waits on the context runs once: after the immediate call the context is cancelled. */
  lemma ImmediateWaiting()
    ensures Run(BySchedule(SetImmediately(New(Some(Job(true, 1, []))), true), Some(CallOnce)), World(false, 0, false, []), false)
      == Some(World(false, 1, true, [Invoke, CtxDone]))
  {
    TestJobBodies();
    var j := Job(true, 1, []);
    var w := World(false, 0, false, []);
    var k := BySchedule(SetImmediately(New(Some(j)), true), Some(CallOnce));
    var w1 := World(false, 1, true, [Invoke, CtxDone]);
    assert CallWrapped(k, j, w) == w1;
    assert BeforeSchedule(k, w, false) == w1;
    assert Run(k, w, false) == Some(Finish(k, w1));
    assert Fin(k) == [] && w1.trace + [] == w1.trace;
  }

}

=== FILE: supervisor.dfy ===
/**
 * group.go: the supervising loop `Group.run` as a single-owner state
 * machine, and the caller-side operations `Add`, `Run`, `Stop`, `Wait` and
 * `AddGroup` on top of it.
 *
 * Goroutines and channels are replaced by actions.  The loop's `select`
 * has no priority, so the model is a step relation: any enabled action may
 * come next, and cancellation does not win over a submission or over
 * `Run()`.  `finished` counts the started jobs that have returned (the
 * `sync.WaitGroup`).
 */
module Supervisor {
  import opened Wrappers
  import opened Traces
  import opened Jobs
  import opened Pipeline
  import opened Contexts

  /** A job sent on `g.add`: `worker.Run` (once = false) or `worker.RunOnce` (once = true). */
  datatype Entry = Entry(worker: Worker, once: bool)

  /**
   * Accepting: the loop selects on `add`, `running` and `ctx.Done()`.
   * Draining: it took `ctx.Done()` and sits in `wg.Wait()`.
   * Closed: it returned and the deferred `close(g.done)` ran.
   */
  datatype Phase = Accepting | Draining | Closed

  /**
   * `held` is the loop's `jobs` slice: `Some` while it is non-nil (before
   * `running` is received), `None` afterwards.  `started` lists the jobs
   * given to `do`, in order; `cancelled` is the group context.
   */
  datatype Group = Group(
    phase: Phase,
    held: Option<seq<Entry>>,
    started: seq<Entry>,
    finished: nat,
    cancelled: bool)

  datatype Error = ErrGroupStopped

  /** The actions of the loop and of its environment. */
  datatype Action =
    | Submit(e: Entry)      // the loop receives a job from `g.add`
    | Activate              // the loop receives from `g.running`
    | Cancel                // the group context is cancelled (`Stop`, or the parent)
    | ObserveCancel         // the loop selects `<-ctx.Done()`
    | JobReturned           // one started job returns (`wg.Done()`)
    | CloseDone             // `wg.Wait()` returned; `close(g.done)`

  /** `NewGroup(ctx)`: an empty non-nil held list; the context is cancelled already if the parent is. */
  function NewGroup(parentCancelled: bool): (g: Group)
    ensures g.phase == Accepting && g.held == Some([]) && g.started == [] && g.finished == 0
    ensures g.cancelled == parentCancelled
    ensures Inv(g)
  {
    Group(Accepting, Some([]), [], 0, parentCancelled)
  }

  /** The `case job := <-g.add` branch: hold the job while the list is non-nil, else start it. */
  function Deliver(g: Group, e: Entry): Group
  {
    match g.held
    case Some(jobs) => g.(held := Some(jobs + [e]))
    case None => g.(started := g.started + [e])
  }

  /** The `case <-g.running` branch: start every held job in order, then drop the list. */
  function Release(g: Group): Group
  {
    match g.held
    case Some(jobs) => g.(started := g.started + jobs, held := None)
    case None => g
  }

  /** One step of the loop or its environment; `None` when the action is not enabled. */
  function Step(g: Group, a: Action): (r: Option<Group>)
    ensures a.Submit? || a.Activate? ==> (r.Some? <==> g.phase == Accepting)
    ensures a.ObserveCancel? ==> (r.Some? <==> g.phase == Accepting && g.cancelled)
    ensures a.JobReturned? ==> (r.Some? <==> g.finished < |g.started|)
    ensures a.CloseDone? ==> (r.Some? <==> g.phase == Draining && g.finished == |g.started|)
    ensures r.Some? && r.value.phase == Closed ==> g.phase == Closed || a.CloseDone?
  {
    match a
    case Submit(e) => if g.phase == Accepting then Some(Deliver(g, e)) else None
    case Activate => if g.phase == Accepting then Some(Release(g)) else None
    case Cancel => Some(g.(cancelled := true))
    case ObserveCancel => if g.phase == Accepting && g.cancelled then Some(g.(phase := Draining)) else None
    case JobReturned => if g.finished < |g.started| then Some(g.(finished := g.finished + 1)) else None
    case CloseDone => if g.phase == Draining && g.finished == |g.started| then Some(g.(phase := Closed)) else None
  }

  /** Running a sequence of actions; `None` when one of them is not enabled. */
  function Exec(g: Group, acts: seq<Action>): Option<Group>
    decreases |acts|
  {
    if acts == [] then Some(g)
    else match Step(g, acts[0])
      case None => None
      case Some(g') => Exec(g', acts[1..])
  }

  /** The invariant of every reachable group. */
  ghost predicate Inv(g: Group)
  {
    && g.finished <= |g.started|
    && (g.phase != Accepting ==> g.cancelled)
    && (g.phase == Closed ==> g.finished == |g.started|)
  }

  /** Started but unfinished jobs: the value of the wait group. */
  function Active(g: Group): nat
    requires g.finished <= |g.started|
  {
    |g.started| - g.finished
  }

  lemma StepKeepsInv(g: Group, a: Action)
    requires Inv(g) && Step(g, a).Some?
    ensures Inv(Step(g, a).value)
  {
  }

  /** Every group reached from `NewGroup` by enabled actions satisfies the invariant. */
  lemma {:induction false} ReachableInv(g: Group, acts: seq<Action>)
    requires Inv(g) && Exec(g, acts).Some?
    ensures Inv(Exec(g, acts).value)
    decreases |acts|
  {
    if acts != [] {
      StepKeepsInv(g, acts[0]);
      ReachableInv(Step(g, acts[0]).value, acts[1..]);
    }
  }

  /**
   * No priority: while the loop accepts and the context is cancelled, a
   * submission, `Run()` and the cancellation are all enabled at once.
   */
  lemma NoCancelPriority(g: Group, e: Entry)
    requires g.phase == Accepting && g.cancelled
    ensures Step(g, Submit(e)).Some? && Step(g, Activate).Some? && Step(g, ObserveCancel).Some?
  {
  }

  /** Before `running`: a received job is appended to the held list and nothing starts. */
  lemma SubmitWhilePending(g: Group, e: Entry)
    requires g.phase == Accepting && g.held.Some?
    ensures Step(g, Submit(e)).Some?
    ensures Step(g, Submit(e)).value.held == Some(g.held.value + [e])
    ensures Step(g, Submit(e)).value.started == g.started
  {
  }

  /**
   * On `running` the held jobs start in list order and the list becomes nil;
   * from then on every received job starts at once.
   */
  lemma ActivateStartsHeld(g: Group, e: Entry)
    requires g.phase == Accepting
    ensures var r := Step(g, Activate).value;
      && r.held == None
      && r.started == g.started + (if g.held.Some? then g.held.value else [])
      && Step(r, Submit(e)) == Some(r.(started := r.started + [e]))
  {
  }

  /** Once the loop has left `Accepting`, no action starts a job or changes the held list. */
  lemma {:induction false} DrainStartsNothing(g: Group, acts: seq<Action>)
    requires g.phase != Accepting && Exec(g, acts).Some?
    ensures Exec(g, acts).value.started == g.started
    ensures Exec(g, acts).value.held == g.held
    ensures Exec(g, acts).value.phase != Accepting
    ensures g.phase == Closed ==> Exec(g, acts).value.phase == Closed
    decreases |acts|
  {
    if acts != [] {
      DrainStartsNothing(Step(g, acts[0]).value, acts[1..]);
    }
  }

  /**
   * `done` is closed exactly once on any run: a sequence of enabled actions
   * contains one `CloseDone` if it takes the group to `Closed` from another
   * phase, and none otherwise.
   */
  lemma {:induction false} CloseExactlyOnce(g: Group, acts: seq<Action>)
    requires Exec(g, acts).Some?
    ensures Count(acts, CloseDone) == (if g.phase != Closed && Exec(g, acts).value.phase == Closed then 1 else 0)
    decreases |acts|
  {
    if acts != [] {
      var g' := Step(g, acts[0]).value;
      assert Exec(g, acts) == Exec(g', acts[1..]);
      CloseExactlyOnce(g', acts[1..]);
      CountCons(acts[0], acts[1..], CloseDone);
      assert [acts[0]] + acts[1..] == acts;
      if g'.phase == Closed {
        DrainStartsNothing(g', acts[1..]);
      }
    }
  }

  /** `done` closes only after cancellation and only when every started job has returned. */
  lemma CloseOnlyWhenDrained(g: Group)
    requires Inv(g) && Step(g, CloseDone).Some?
    ensures g.cancelled && Active(g) == 0
    ensures Step(g, CloseDone).value.phase == Closed
  {
  }

  // ---------------------------------------------------------------------
  // Caller side.
  // ---------------------------------------------------------------------

  /** The entries `Add` submits: `worker.Run` for each non-nil worker with a non-nil job, in order. */
  function Intake(ws: seq<Option<Worker>>): (es: seq<Entry>)
    ensures |es| <= |ws|
    ensures forall i :: 0 <= i < |es| ==> es[i].worker.job.Some? && !es[i].once
  {
    if ws == [] then []
    else if ws[0].None? || ws[0].value.job.None? then Intake(ws[1..])
    else [Entry(ws[0].value, false)] + Intake(ws[1..])
  }

  /** A worker is submitted exactly when it and its job are non-nil. */
  lemma {:induction false} IntakeMembers(ws: seq<Option<Worker>>)
    ensures forall w :: Entry(w, false) in Intake(ws) <==> Some(w) in ws && w.job.Some?
  {
    if ws != [] {
      assert ws == [ws[0]] + ws[1..];
      IntakeMembers(ws[1..]);
    }
  }

  /**
   * `Intake` is the order-preserving filter: it distributes over
   * concatenation, and a single worker yields its `Run` entry exactly when it
   * and its job are non-nil.
   */
  lemma IntakeFilter(a: seq<Option<Worker>>, b: seq<Option<Worker>>, x: Option<Worker>)
    ensures Intake(a + b) == Intake(a) + Intake(b)
    ensures Intake([x]) == (if x.Some? && x.value.job.Some? then [Entry(x.value, false)] else [])
  {
    IntakeConcat(a, b);
    assert [x][1..] == [];
  }

  lemma {:induction false} IntakeConcat(a: seq<Option<Worker>>, b: seq<Option<Worker>>)
    ensures Intake(a + b) == Intake(a) + Intake(b)
  {
    if a == [] {
      assert a + b == b;
    } else {
      var c := a + b;
      assert c[0] == a[0] && c[1..] == a[1..] + b;
      IntakeConcat(a[1..], b);
      if a[0].None? || a[0].value.job.None? {
        assert Intake(c) == Intake(c[1..]);
      } else {
        assert Intake(c) == [Entry(a[0].value, false)] + Intake(c[1..]);
      }
    }
  }

  function Submits(es: seq<Entry>): (acts: seq<Action>)
    ensures |acts| == |es|
    ensures forall i :: 0 <= i < |es| ==> acts[i] == Submit(es[i])
  {
    if es == [] then [] else [Submit(es[0])] + Submits(es[1..])
  }

  /**
   * `Group.Add(workers...)`, with the loop otherwise idle during the call.
   * A send meets either the loop (`Accepting`) or a closed `done`; a call made
   * while the loop drains blocks until `done` closes, so its only possible
   * result is the same error.
   */
  function Add(g: Group, ws: seq<Option<Worker>>): (r: (Group, Option<Error>))
    ensures r.1.None? <==> g.phase == Accepting || Intake(ws) == []
    ensures r.1.Some? ==> r.0 == g
    ensures r.0.phase == g.phase
    decreases |ws|
  {
    if ws == [] then (g, None)
    else if ws[0].None? || ws[0].value.job.None? then Add(g, ws[1..])
    else if g.phase != Accepting then (g, Some(ErrGroupStopped))
    else Add(Deliver(g, Entry(ws[0].value, false)), ws[1..])
  }

  /**
   * A successful `Add` is exactly the loop receiving the intake's entries one
   * after another: caller side and loop side agree.
   */
  lemma {:induction false} AddIsSubmits(g: Group, ws: seq<Option<Worker>>)
    requires Add(g, ws).1.None?
    ensures Exec(g, Submits(Intake(ws))) == Some(Add(g, ws).0)
    decreases |ws|
  {
    if ws == [] {
    } else if ws[0].None? || ws[0].value.job.None? {
      assert Add(g, ws) == Add(g, ws[1..]);
      assert Intake(ws) == Intake(ws[1..]);
      AddIsSubmits(g, ws[1..]);
    } else {
      var e := Entry(ws[0].value, false);
      var g' := Deliver(g, e);
      assert Add(g, ws) == Add(g', ws[1..]);
      AddIsSubmits(g', ws[1..]);
      assert Intake(ws) == [e] + Intake(ws[1..]);
      assert Submits(Intake(ws)) == [Submit(e)] + Submits(Intake(ws[1..]));
      assert Step(g, Submit(e)) == Some(g');
      assert Exec(g, Submits(Intake(ws))) == Exec(g', Submits(Intake(ws[1..])));
    }
  }

  /** Before `Run()`, `Add` appends its workers to the held list in call order and starts none. */
  lemma {:induction false} AddWhilePending(g: Group, ws: seq<Option<Worker>>)
    requires g.phase == Accepting && g.held.Some?
    ensures Add(g, ws).1.None?
    ensures Add(g, ws).0 == g.(held := Some(g.held.value + Intake(ws)))
    decreases |ws|
  {
    if ws == [] {
      assert g.held.value + Intake(ws) == g.held.value;
    } else if ws[0].None? || ws[0].value.job.None? {
      assert Add(g, ws) == Add(g, ws[1..]);
      assert Intake(ws) == Intake(ws[1..]);
      AddWhilePending(g, ws[1..]);
    } else {
      var e := Entry(ws[0].value, false);
      var g' := Deliver(g, e);
      assert Add(g, ws) == Add(g', ws[1..]);
      AddWhilePending(g', ws[1..]);
      assert Intake(ws) == [e] + Intake(ws[1..]);
      assert g.held.value + Intake(ws) == (g.held.value + [e]) + Intake(ws[1..]);
    }
  }

  /** After `Run()`, `Add` starts its workers immediately, in call order. */
  lemma {:induction false} AddWhileRunning(g: Group, ws: seq<Option<Worker>>)
    requires g.phase == Accepting && g.held.None?
    ensures Add(g, ws).1.None?
    ensures Add(g, ws).0 == g.(started := g.started + Intake(ws))
    decreases |ws|
  {
    if ws == [] {
      assert g.started + Intake(ws) == g.started;
    } else if ws[0].None? || ws[0].value.job.None? {
      assert Add(g, ws) == Add(g, ws[1..]);
      assert Intake(ws) == Intake(ws[1..]);
      AddWhileRunning(g, ws[1..]);
    } else {
      var e := Entry(ws[0].value, false);
      var g' := Deliver(g, e);
      assert Add(g, ws) == Add(g', ws[1..]);
      AddWhileRunning(g', ws[1..]);
      assert Intake(ws) == [e] + Intake(ws[1..]);
      assert g.started + Intake(ws) == (g.started + [e]) + Intake(ws[1..]);
    }
  }

  /** `Group.Run()`: activates the loop; after `done` it returns without effect. */
  function RunGroup(g: Group): (r: Group)
    ensures g.phase == Accepting ==> Step(g, Activate) == Some(r)
    ensures g.phase != Accepting ==> r == g
    ensures r.phase == g.phase
  {
    if g.phase == Accepting then Release(g) else g
  }

  /** A repeated `Run()` starts nothing: the held list is already nil. */
  lemma RunGroupIdempotent(g: Group)
    ensures RunGroup(RunGroup(g)) == RunGroup(g)
    ensures g.phase == Accepting ==> RunGroup(g).held.None?
  {
  }

  /** `Group.Stop()`: cancels the group context; idempotent, and waits for nothing. */
  function Stop(g: Group): (r: Group)
    ensures r.cancelled
    ensures r.phase == g.phase && r.started == g.started && r.held == g.held && r.finished == g.finished
    ensures Step(g, Cancel) == Some(r)
  {
    g.(cancelled := true)
  }

  lemma StopIdempotent(g: Group)
    ensures Stop(Stop(g)) == Stop(g)
  {
  }

  /**
   * `Group.Wait(ctx)`: the results it can return in the current state (a
   * `select` without priority may return either when both are ready); the
   * empty set means it blocks.  `None` as `ctx` is `Wait(nil)`.
   */
  function Wait(g: Group, ctx: Option<Ctx>): (r: set<Option<CtxError>>)
    ensures None in r <==> g.phase == Closed
    ensures forall e :: Some(e) in r <==> ctx.Some? && ctx.value.fired && e == ctx.value.err
    ensures r == {} <==> g.phase != Closed && (ctx.None? || !ctx.value.fired)
  {
    var closed: set<Option<CtxError>> := if g.phase == Closed then {None} else {};
    if ctx.None? then closed
    else if ctx.value.fired then closed + {Some(ctx.value.err)}
    else closed
  }

  /**
   * A nil result from `Wait` on a group reached from `NewGroup` means the
   * group has been cancelled and every started job has returned.
   */
  lemma WaitNilDrained(g: Group, ctx: Option<Ctx>, acts: seq<Action>, parentCancelled: bool)
    requires Exec(NewGroup(parentCancelled), acts) == Some(g) && None in Wait(g, ctx)
    ensures g.cancelled && g.finished == |g.started|
  {
    ReachableInv(NewGroup(parentCancelled), acts);
  }

  /** The worker `AddGroup` registers: wait for cancellation, stop every child, then wait for every child. */
  function CascadeWorker(children: seq<GroupId>): Worker
  {
    New(Some(Job(true, 0, children)))
  }

  /** `Group.AddGroup(groups...)`. */
  function AddGroup(g: Group, children: seq<GroupId>): (r: (Group, Option<Error>))
  {
    Add(g, [Some(CascadeWorker(children))])
  }

  /** The entry point a submitted entry runs. */
  function RunEntry(e: Entry, w: World, c: bool): Option<World>
    requires e.worker.job.Some?
  {
    if e.once then Some(RunOnce(e.worker, w)) else Run(e.worker, w, c)
  }

  /** `AddGroup` submits exactly one job, through the same intake as `Add`. */
  lemma AddGroupSubmitsOne(g: Group, children: seq<GroupId>)
    ensures g.phase == Accepting ==>
      AddGroup(g, children) == (Deliver(g, Entry(CascadeWorker(children), false)), None)
    ensures g.phase != Accepting ==> AddGroup(g, children) == (g, Some(ErrGroupStopped))
  {
    var k := CascadeWorker(children);
    assert [Some(k)][1..] == [];
    if g.phase == Accepting {
      assert Add(g, [Some(k)]) == Add(Deliver(g, Entry(k, false)), []);
    }
  }

  /**
   * When run, the registered job first waits for the context, then stops
   * every child in list order and only then waits for every child in list
   * order; it does not return before the context is cancelled.
   */
  lemma CascadeRun(children: seq<GroupId>, w: World, c: bool)
    ensures var r := RunEntry(Entry(CascadeWorker(children), false), w, c);
      && r.Some?
      && r.value.cancelled
      && r.value.trace == w.trace + ([Invoke, CtxDone] + Stops(children) + Waits(children))
  {
    var j := Job(true, 0, children);
    var t := [Invoke, CtxDone] + Stops(children) + Waits(children);
    CascadeEntry(children, w, c);
    CascadeCall(children, w);
    assert RunEntry(Entry(CascadeWorker(children), false), w, c) == Some(Call(j, w));
    assert Call(j, w) == w.(cancelled := true, trace := w.trace + t);
  }

  /** One call of the cascade job returns only once the context is cancelled, and emits its body. */
  lemma CascadeCall(children: seq<GroupId>, w: World)
    ensures Call(Job(true, 0, children), w)
      == w.(cancelled := true, trace := w.trace + ([Invoke, CtxDone] + Stops(children) + Waits(children)))
  {
    CascadeBody(children);
  }

  /** The registered entry runs the cascade job exactly once, bare. */
  lemma CascadeEntry(children: seq<GroupId>, w: World, c: bool)
    ensures RunEntry(Entry(CascadeWorker(children), false), w, c) == Some(Call(Job(true, 0, children), w))
  {
    RunBare(Job(true, 0, children), w, c);
  }

  /** The body of the cascade job, event by event. */
  lemma CascadeBody(children: seq<GroupId>)
    ensures Body(Job(true, 0, children)) == [Invoke, CtxDone] + Stops(children) + Waits(children)
  {
    assert Rest(Job(true, 0, children)) == [CtxDone] + Stops(children) + Waits(children);
  }
}

=== FILE: tickpool.dfy ===
/**
 * workers.go: the simpler, independent API layer.  A pool runs one loop per
 * added `Options`; each loop calls `Handler` once per tick received on its
 * `TickRun` channel, ends when the channel is closed or the context is
 * cancelled, and then calls `Canceler` if it is set.  The pool's `done`
 * closes once it has seen cancellation and every loop has exited.
 *
 * This layer redeclares `Job` and `New` and shares nothing with the
 * Worker/Group layer, so it is a module of its own.
 */
module TickPool {
  import opened Wrappers
  import opened Traces
  import opened Contexts

  /** `Options`: the `Handler` is always called as set; `Canceler` may be nil. */
  datatype Options = Options(hasCanceler: bool)

  /** What one loop's `select` can receive. */
  datatype Signal =
    | Tick            // a value from `TickRun`
    | SourceClosed    // `TickRun` is closed (`ok == false`)
    | CtxCancelled    // `<-ctx.Done()`

  /** The calls a loop makes. */
  datatype Call = Handler | Canceler

  datatype Loop = Loop(opts: Options, calls: seq<Call>, exited: bool)

  /** The deferred function of a loop: `Canceler` if set. */
  function Exit(l: Loop): Loop
  {
    l.(exited := true, calls := l.calls + (if l.opts.hasCanceler then [Canceler] else []))
  }

  /** One iteration of the loop's `select`. */
  function LoopStep(l: Loop, s: Signal): (r: Loop)
    requires !l.exited
    ensures r.opts == l.opts
    ensures r.exited <==> !s.Tick?
  {
    match s
    case Tick => l.(calls := l.calls + [Handler])
    case SourceClosed => Exit(l)
    case CtxCancelled => Exit(l)
  }

  /** A loop fed a whole signal stream; signals after it exited are never received. */
  function RunLoop(l: Loop, signals: seq<Signal>): Loop
    decreases |signals|
  {
    if l.exited || signals == [] then l
    else RunLoop(LoopStep(l, signals[0]), signals[1..])
  }

  /** A fresh loop for `o` fed `signals`. */
  function JobLoop(o: Options, signals: seq<Signal>): Loop
  {
    RunLoop(Loop(o, [], false), signals)
  }

  /** Reference: the ticks that arrive before the first close or cancellation. */
  function TicksBeforeStop(signals: seq<Signal>): nat
  {
    if signals == [] || !signals[0].Tick? then 0 else 1 + TicksBeforeStop(signals[1..])
  }

  /** Reference: whether the stream holds a close or a cancellation at all. */
  predicate HasStop(signals: seq<Signal>)
  {
    exists i :: 0 <= i < |signals| && !signals[i].Tick?
  }

  /** The calls a loop has made after `m` handler calls, given whether it has exited. */
  function Calls(o: Options, m: nat, exited: bool): seq<Call>
  {
    Repeat([Handler], m) + (if exited && o.hasCanceler then [Canceler] else [])
  }

  lemma {:induction false} RunLoopSpec(l: Loop, m: nat, signals: seq<Signal>)
    requires !l.exited && l.calls == Repeat([Handler], m)
    ensures RunLoop(l, signals).opts == l.opts
    ensures RunLoop(l, signals).exited == HasStop(signals)
    ensures RunLoop(l, signals).calls == Calls(l.opts, m + TicksBeforeStop(signals), HasStop(signals))
    decreases |signals|
  {
    if signals == [] {
      assert Repeat([Handler], m) + [] == Repeat([Handler], m);
    } else {
      var l' := LoopStep(l, signals[0]);
      if signals[0].Tick? {
        RepeatSnoc([Handler], m);
        RunLoopSpec(l', m + 1, signals[1..]);
        assert HasStop(signals) == HasStop(signals[1..]) by {
          if HasStop(signals[1..]) {
            var i :| 0 <= i < |signals[1..]| && !signals[1..][i].Tick?;
            assert !signals[i + 1].Tick?;
          }
          if HasStop(signals) {
            var i :| 0 <= i < |signals| && !signals[i].Tick?;
            assert signals[1..][i - 1] == signals[i];
          }
        }
      } else {
        assert HasStop(signals) by { assert !signals[0].Tick?; }
      }
    }
  }

  /**
   * One loop over a signal stream: it calls `Handler` once per tick received
   * before the first close or cancellation and at no other time; it exits
   * exactly when the stream holds a close or a cancellation; on exit it calls
   * `Canceler` exactly once, last, if one is set.
   */
  lemma JobLoopCalls(o: Options, signals: seq<Signal>)
    ensures var l := JobLoop(o, signals);
      && l.exited == HasStop(signals)
      && Count(l.calls, Handler) == TicksBeforeStop(signals)
      && Count(l.calls, Canceler) == (if l.exited && o.hasCanceler then 1 else 0)
      && (l.exited && o.hasCanceler ==> l.calls[|l.calls| - 1] == Canceler)
  {
    assert Repeat([Handler], 0) == [];
    RunLoopSpec(Loop(o, [], false), 0, signals);
    CallsCounts(o, TicksBeforeStop(signals), HasStop(signals));
  }

  lemma CallsCounts(o: Options, m: nat, exited: bool)
    ensures Count(Calls(o, m, exited), Handler) == m
    ensures Count(Calls(o, m, exited), Canceler) == (if exited && o.hasCanceler then 1 else 0)
    ensures exited && o.hasCanceler ==> Calls(o, m, exited)[|Calls(o, m, exited)| - 1] == Canceler
  {
    var fin: seq<Call> := if exited && o.hasCanceler then [Canceler] else [];
    assert Calls(o, m, exited) == [] + Repeat([Handler], m) + fin;
    CountUnitBlocks([], [Handler], m, fin, Handler);
    NotInRepeat([Handler], m, Canceler);
    CountConcat(Repeat([Handler], m), fin, Canceler);
  }

  /** A closed tick source ends the loop without a handler call for it. */
  lemma ClosedSourceStops(o: Options, ticks: nat, rest: seq<Signal>)
    ensures var l := JobLoop(o, Repeat([Tick], ticks) + [SourceClosed] + rest);
      && l.exited
      && Count(l.calls, Handler) == ticks
  {
    var s := Repeat([Tick], ticks) + [SourceClosed] + rest;
    JobLoopCalls(o, s);
    TicksPrefix(ticks, SourceClosed, rest);
    assert s[|Repeat([Tick], ticks)|] == SourceClosed;
  }

  lemma {:induction false} TicksPrefix(ticks: nat, stop: Signal, rest: seq<Signal>)
    requires !stop.Tick?
    ensures TicksBeforeStop(Repeat([Tick], ticks) + [stop] + rest) == ticks
    ensures |Repeat([Tick], ticks)| == ticks
  {
    if ticks > 0 {
      TicksPrefix(ticks - 1, stop, rest);
      var s := Repeat([Tick], ticks) + [stop] + rest;
      assert s[1..] == Repeat([Tick], ticks - 1) + [stop] + rest;
    } else {
      assert Repeat([Tick], 0) + [stop] + rest == [stop] + rest;
    }
  }

  // ---------------------------------------------------------------------
  // The pool.
  // ---------------------------------------------------------------------

  /**
   * `Workers`: `buffer` is the one-slot `add` channel, `loops` the loops the
   * run goroutine started, `accepting` whether it still selects on `add`
   * (and so still holds the sentinel count added at start), `cancelled`
   * the context, `done` whether `done` is closed.
   */
  datatype Pool = Pool(buffer: Option<Options>, loops: seq<Loop>, accepting: bool, cancelled: bool, done: bool)

  datatype PoolAction =
    | AddJob(o: Options)              // `AddJob(opts)` puts `opts` into the buffered channel
    | Receive                         // the run goroutine takes it and starts a loop
    | Signal(i: nat, s: Signal)       // loop `i` receives `s`
    | Cancel                          // the context is cancelled
    | ObserveCancel                   // the run goroutine takes `<-ctx.Done()` and releases the sentinel
    | CloseDone                       // `wg.Wait()` returned; `close(w.done)`

  /** `New(ctx)`. */
  function NewPool(parentCancelled: bool): (p: Pool)
    ensures p.accepting && p.loops == [] && !p.done && p.buffer.None?
    ensures p.cancelled == parentCancelled
    ensures PInv(p)
  {
    Pool(None, [], true, parentCancelled, false)
  }

  /** Loops still running. */
  function Running(loops: seq<Loop>): (n: nat)
    ensures n <= |loops|
  {
    if loops == [] then 0 else (if loops[0].exited then 0 else 1) + Running(loops[1..])
  }

  /** The wait group's counter: the sentinel while accepting, plus one per running loop. */
  function Counter(p: Pool): nat
  {
    (if p.accepting then 1 else 0) + Running(p.loops)
  }

  function PStep(p: Pool, a: PoolAction): (r: Option<Pool>)
    ensures a.AddJob? ==> (r.Some? <==> p.buffer.None?)
    ensures a.Receive? ==> (r.Some? <==> p.accepting && p.buffer.Some?)
    ensures a.CloseDone? ==> (r.Some? <==> !p.accepting && !p.done && Counter(p) == 0)
    ensures r.Some? ==> |r.value.loops| >= |p.loops|
  {
    match a
    case AddJob(o) => if p.buffer.None? then Some(p.(buffer := Some(o))) else None
    case Receive =>
      if p.accepting && p.buffer.Some? then
        Some(p.(loops := p.loops + [Loop(p.buffer.value, [], false)], buffer := None))
      else None
    case Signal(i, s) =>
      if i < |p.loops| && !p.loops[i].exited && (s.CtxCancelled? ==> p.cancelled) then
        Some(p.(loops := p.loops[i := LoopStep(p.loops[i], s)]))
      else None
    case Cancel => Some(p.(cancelled := true))
    case ObserveCancel => if p.accepting && p.cancelled then Some(p.(accepting := false)) else None
    case CloseDone => if !p.accepting && !p.done && Counter(p) == 0 then Some(p.(done := true)) else None
  }

  function PExec(p: Pool, acts: seq<PoolAction>): Option<Pool>
    decreases |acts|
  {
    if acts == [] then Some(p)
    else match PStep(p, acts[0])
      case None => None
      case Some(p') => PExec(p', acts[1..])
  }

  /** Loop `l` has made only handler calls, then `Canceler` once and last if it exited with one set. */
  ghost predicate WellFormed(l: Loop)
  {
    var f := if l.exited && l.opts.hasCanceler then 1 else 0;
    && |l.calls| >= f
    && (forall k :: 0 <= k < |l.calls| - f ==> l.calls[k] == Handler)
    && (f == 1 ==> l.calls[|l.calls| - 1] == Canceler)
  }

  ghost predicate PInv(p: Pool)
  {
    && (!p.accepting ==> p.cancelled)
    && (p.done ==> !p.accepting && Running(p.loops) == 0)
    && (forall i :: 0 <= i < |p.loops| ==> WellFormed(p.loops[i]))
  }

  lemma LoopStepWellFormed(l: Loop, s: Signal)
    requires !l.exited && WellFormed(l)
    ensures WellFormed(LoopStep(l, s))
  {
  }

  lemma {:induction false} RunningAppend(loops: seq<Loop>, l: Loop)
    ensures Running(loops + [l]) == Running(loops) + (if l.exited then 0 else 1)
    decreases |loops|
  {
    if loops == [] {
      assert [] + [l] == [l];
    } else {
      assert (loops + [l])[1..] == loops[1..] + [l];
      RunningAppend(loops[1..], l);
    }
  }

  lemma {:induction false} RunningUpdate(loops: seq<Loop>, i: nat, l: Loop)
    requires i < |loops|
    ensures Running(loops[i := l]) == Running(loops) - (if loops[i].exited then 0 else 1) + (if l.exited then 0 else 1)
    decreases |loops|
  {
    if i > 0 {
      assert loops[i := l][1..] == loops[1..][i - 1 := l];
      RunningUpdate(loops[1..], i - 1, l);
    } else {
      assert loops[i := l][1..] == loops[1..];
    }
  }

  lemma PStepKeepsInv(p: Pool, a: PoolAction)
    requires PInv(p) && PStep(p, a).Some?
    ensures PInv(PStep(p, a).value)
  {
    var r := PStep(p, a).value;
    match a
    case Receive =>
      RunningAppend(p.loops, Loop(p.buffer.value, [], false));
      assert forall i :: 0 <= i < |p.loops| ==> r.loops[i] == p.loops[i];
    case Signal(i, s) =>
      LoopStepWellFormed(p.loops[i], s);
      RunningUpdate(p.loops, i, LoopStep(p.loops[i], s));
    case _ =>
  }

  /** Every pool reached by enabled actions from a state satisfying the invariant keeps it. */
  lemma {:induction false} PoolReachableInv(p: Pool, acts: seq<PoolAction>)
    requires PInv(p) && PExec(p, acts).Some?
    ensures PInv(PExec(p, acts).value)
    decreases |acts|
  {
    if acts != [] {
      PStepKeepsInv(p, acts[0]);
      PoolReachableInv(PStep(p, acts[0]).value, acts[1..]);
    }
  }

  /**
   * The pool's `done` closes only after cancellation, after the sentinel was
   * released, and when every started loop has exited.
   */
  lemma DoneOnlyWhenDrained(p: Pool)
    requires PInv(p) && PStep(p, CloseDone).Some?
    ensures p.cancelled && !p.accepting
    ensures forall i :: 0 <= i < |p.loops| ==> p.loops[i].exited
  {
    forall i | 0 <= i < |p.loops|
      ensures p.loops[i].exited
    {
      NoneRunning(p.loops, i);
    }
  }

  lemma {:induction false} NoneRunning(loops: seq<Loop>, i: nat)
    requires Running(loops) == 0 && i < |loops|
    ensures loops[i].exited
    decreases |loops|
  {
    if i > 0 {
      NoneRunning(loops[1..], i - 1);
    }
  }

  /**
   * The wait-group accounting: starting a loop adds one, a loop exiting
   * removes one, taking cancellation releases the sentinel once, and
   * nothing else moves the counter.
   */
  lemma CounterAccounting(p: Pool, a: PoolAction)
    requires PStep(p, a).Some?
    ensures var r := PStep(p, a).value;
      Counter(r) == Counter(p)
        + (if a.Receive? then 1 else 0)
        - (if a.Signal? && !a.s.Tick? then 1 else 0)
        - (if a.ObserveCancel? then 1 else 0)
  {
    var r := PStep(p, a).value;
    match a
    case Receive =>
      RunningAppend(p.loops, Loop(p.buffer.value, [], false));
    case Signal(i, s) =>
      RunningUpdate(p.loops, i, LoopStep(p.loops[i], s));
    case _ =>
  }

  /**
   * Each action changes at most one loop: a `Signal(i, s)` steps loop `i`
   * by `s`, `Receive` appends a fresh loop, and nothing else touches a loop,
   * so the handler runs only on a tick delivered to its loop.
   */
  lemma LoopsFrame(p: Pool, a: PoolAction, i: nat)
    requires PStep(p, a).Some? && i < |p.loops|
    ensures PStep(p, a).value.loops[i] ==
      (if a.Signal? && a.i == i then LoopStep(p.loops[i], a.s) else p.loops[i])
    ensures a.Receive? ==> PStep(p, a).value.loops == p.loops + [Loop(p.buffer.value, [], false)]
    ensures !a.Receive? ==> |PStep(p, a).value.loops| == |p.loops|
  {
  }

  /** After the run goroutine took cancellation, no loop is ever started. */
  lemma {:induction false} NoLoopsAfterStop(p: Pool, acts: seq<PoolAction>)
    requires !p.accepting && PExec(p, acts).Some?
    ensures |PExec(p, acts).value.loops| == |p.loops|
    ensures !PExec(p, acts).value.accepting
    decreases |acts|
  {
    if acts != [] {
      NoLoopsAfterStop(PStep(p, acts[0]).value, acts[1..]);
    }
  }

  /**
   * `AddJob` on a stopped pool whose buffer is empty still returns, but its
   * job never starts: the run goroutine no longer reads the channel.
   */
  lemma LateAddJobNeverStarts(p: Pool, o: Options, acts: seq<PoolAction>)
    requires !p.accepting && p.buffer.None?
    requires PExec(PStep(p, AddJob(o)).value, acts).Some?
    ensures PStep(p, AddJob(o)).Some?
    ensures |PExec(PStep(p, AddJob(o)).value, acts).value.loops| == |p.loops|
  {
    NoLoopsAfterStop(PStep(p, AddJob(o)).value, acts);
  }

  /** `Workers.Wait(ctx)`: the results possible now; empty means it blocks. */
  function Wait(p: Pool, ctx: Ctx): (r: set<Option<CtxError>>)
    ensures None in r <==> p.done
    ensures forall e :: Some(e) in r <==> ctx.fired && e == ctx.err
    ensures r == {} <==> !p.done && !ctx.fired
  {
    (if p.done then {None} else {}) + (if ctx.fired then {Some(ctx.err)} else {})
  }

  /**
   * A nil result from `Wait` on a pool reached from `NewPool` means the pool
   * has been cancelled and every loop it started has exited.
   */
  lemma WaitNilDrained(p: Pool, ctx: Ctx, acts: seq<PoolAction>, parentCancelled: bool)
    requires PExec(NewPool(parentCancelled), acts) == Some(p) && None in Wait(p, ctx)
    ensures p.cancelled && !p.accepting
    ensures forall i :: 0 <= i < |p.loops| ==> p.loops[i].exited
  {
    PoolReachableInv(NewPool(parentCancelled), acts);
    forall i | 0 <= i < |p.loops|
      ensures p.loops[i].exited
    {
      NoneRunning(p.loops, i);
    }
  }
}

=== FILE: traces.dfy ===
/** Counting and repetition over finite event traces. */
module Traces {

  /** Number of occurrences of `x` in `t`. */
  function Count<T(==)>(t: seq<T>, x: T): (n: nat)
    ensures n <= |t|
    ensures n == 0 <==> x !in t
  {
    if t == [] then 0 else (if t[0] == x then 1 else 0) + Count(t[1..], x)
  }

  lemma {:induction false} CountConcat<T>(a: seq<T>, b: seq<T>, x: T)
    ensures Count(a + b, x) == Count(a, x) + Count(b, x)
  {
    if a == [] {
      assert a + b == b;
    } else {
      assert (a + b)[1..] == a[1..] + b;
      CountConcat(a[1..], b, x);
    }
  }

  /** `n` back-to-back copies of the block `b`. */
  function Repeat<T>(b: seq<T>, n: nat): seq<T>
  {
    if n == 0 then [] else b + Repeat(b, n - 1)
  }

  lemma {:induction false} RepeatSnoc<T>(b: seq<T>, n: nat)
    ensures Repeat(b, n) + b == Repeat(b, n + 1)
  {
    if n > 0 {
      RepeatSnoc(b, n - 1);
      assert Repeat(b, n) + b == b + (Repeat(b, n - 1) + b);
    }
  }

  lemma {:induction false} CountCons<T>(y: T, t: seq<T>, x: T)
    ensures Count([y] + t, x) == (if y == x then 1 else 0) + Count(t, x)
  {
    assert ([y] + t)[1..] == t;
  }

  lemma {:induction false} CountRepeat<T>(b: seq<T>, n: nat, x: T)
    ensures Count(Repeat(b, n), x) == n * Count(b, x)
  {
    if n > 0 {
      CountRepeat(b, n - 1, x);
      CountConcat(b, Repeat(b, n - 1), x);
      assert (n - 1) * Count(b, x) + Count(b, x) == n * Count(b, x);
    }
  }

  lemma {:induction false} NotInRepeat<T>(b: seq<T>, n: nat, x: T)
    requires x !in b
    ensures x !in Repeat(b, n)
  {
    if n > 0 {
      NotInRepeat(b, n - 1, x);
    }
  }

  /** Appending one more block to a run of blocks. */
  lemma RepeatStep<T>(p: seq<T>, b: seq<T>, m: nat)
    ensures (p + b) + Repeat(b, m) == p + Repeat(b, m + 1)
  {
    assert Repeat(b, m + 1) == b + Repeat(b, m);
  }

  /** Occurrences of `x` in a prefix, `n` blocks and a suffix. */
  lemma CountBlocks<T>(p: seq<T>, b: seq<T>, n: nat, f: seq<T>, x: T)
    ensures Count(p + Repeat(b, n) + f, x) == Count(p, x) + n * Count(b, x) + Count(f, x)
  {
    CountConcat(p + Repeat(b, n), f, x);
    CountConcat(p, Repeat(b, n), x);
    CountRepeat(b, n, x);
  }

  /**
   * A trace `p + a + f` where `a` never contains `x` and `f` is empty or the
   * single event `x`: the new occurrences of `x` are exactly those of `f`,
   * and when `f` is `[x]` it comes last.
   */
  lemma FinalEvent<T>(p: seq<T>, a: seq<T>, f: seq<T>, x: T)
    requires x !in a && (f == [] || f == [x])
    ensures Count(p + a + f, x) == Count(p, x) + |f|
    ensures forall i :: |p| <= i < |p + a + f| - 1 ==> (p + a + f)[i] != x
    ensures f == [x] ==> |p + a + f| > |p| && (p + a + f)[|p + a + f| - 1] == x
  {
    var t := p + a + f;
    CountConcat(p + a, f, x);
    CountConcat(p, a, x);
    assert Count(f, x) == |f|;
    forall i | |p| <= i < |t| - 1
      ensures t[i] != x
    {
      assert t[i] == a[i - |p|];
    }
  }

  /** `CountBlocks` for a block holding `x` at most once and a suffix without `x`. */
  lemma CountUnitBlocks<T>(p: seq<T>, b: seq<T>, n: nat, f: seq<T>, x: T)
    requires Count(b, x) <= 1 && Count(f, x) == 0
    ensures Count(p + Repeat(b, n) + f, x) == Count(p, x) + (if Count(b, x) == 1 then n else 0)
  {
    CountBlocks(p, b, n, f, x);
    if Count(b, x) == 1 {
      assert n * Count(b, x) == n;
    } else {
      assert n * Count(b, x) == 0;
    }
  }

  /** Occurrences of `x` in a sequence bracketed by `a` and `c`. */
  lemma CountBracket<T>(a: T, b: seq<T>, c: T, x: T)
    ensures Count([a] + b + [c], x) == (if a == x then 1 else 0) + Count(b, x) + (if c == x then 1 else 0)
  {
    assert [a] + b + [c] == [a] + (b + [c]);
    CountCons(a, b + [c], x);
    CountConcat(b, [c], x);
  }
}

=== FILE: wrappers.dfy ===
/** The option type shared by the modules of this model. */
module Wrappers {

  /** `None` stands for Go's nil, or for a call that never returns. */
  datatype Option<+T> = None | Some(value: T)
}
